=== FILE: README.md ===
# Blog API error normaliser and controllers, in Dafny

This project models the decision logic of a small Express/PostgreSQL REST API
for posts and students:

- **The error normaliser** (`middleware/errorHandler.js`). `AppError` derives
  `status` (`'fail'` or `'error'`) from the decimal text of its status code.
  `globalErrorHandler` maps a PostgreSQL SQLSTATE code (Appendix A of the
  PostgreSQL manual: `23505`, `23503`, `23502`, `22P02`, `08000`, `08003`,
  `08006`, anything else) to an HTTP status, a message and a `details` record.
  It then builds the error envelope and decides whether `details` and the
  stack are exposed. `notFoundHandler` turns an unmatched route into a 404.
- **Three controller variants**, each modelled separately:
  `controllers/studentsController.js`, the asyncHandler/`AppError` posts
  controller `controllers/postsController-old.js` (lines 1–184), and the
  posts controller the routes actually use, `controllers/postsController.js`,
  which catches its own errors and sends no envelope.

Every handler is a pure function of the request and of what the data layer
answered. The data layer is an oracle value `StoreResult<T>`: the rows it
returned, or the error the driver threw. A handler returns a `Run`: the
data-layer call it issued (`None` when validation stopped it first) and either
the response or the error passed to `next`. "No store access before validation
passes" is then stated twice: the call is `None` exactly when a check fails,
and a rejected run is the same whatever the store would have answered.

Files: `common.dfy` (requests, truthiness, the numeric-id guard, the
missing-field collector, the post-field test, success bodies), `status_text.dfy` (decimal text and
the meaning of "starts with '4'"), `error_handler.dfy`, `store.dfy` (records,
calls, oracle results), `students_controller.dfy`,
`posts_controller_old.dfy`, `posts_controller.dfy`, and `variants.dfy`
(where the two posts controllers disagree).

Behaviour of the code worth knowing:

- Messages are the Portuguese strings of the code, e.g. `'Dados duplicados
  encontrados'` for a unique violation and `'Estudante não encontrado'` for a
  missing student.
- The error envelope's `status` is always `'error'`, even for a 4xx whose
  `AppError.status` is `'fail'`.
- `details` is attached only when the error is operational or the
  environment is `development`. A raw database error in production therefore
  never shows the details the mapping built for it.
- Only `08000`, `08003` and `08006` give 503. Other class-08 codes, such as
  `08001`, fall to the generic 500.
- The live posts controller catches every model error itself and answers 500.
  It validates no id, makes no length checks, sets no search-term minimum,
  and its delete returns only a message, not the deleted row.

## Model

| member | source | states |
|---|---|---|
| `ErrorHandler.AppError` | middleware/errorHandler.js:3-13 | status is `'fail'` exactly when the status code is a non-negative integer whose leading decimal digit is 4 (a band 4·10^k ≤ n < 5·10^k), else `'error'`; always operational, no SQLSTATE code, keeps its message, status code and details |
| `ErrorHandler.AppErrorStatusByClass` | middleware/errorHandler.js:7 | every 4xx AppError has status `'fail'`, every 5xx one `'error'` |
| `StatusText.StatusTextRule` | middleware/errorHandler.js:7 | the decimal text of an integer starts with '4' iff the integer is non-negative and lies in a band [4·10^k, 5·10^k) |
| `StatusText.LeadingDigitBand` | middleware/errorHandler.js:7 | the leading digit of n is d iff n lies in some band [d·10^k, (d+1)·10^k) |
| `StatusText.NatTextFirstChar` | middleware/errorHandler.js:7 | the first character of the decimal text is the leading digit |
| `StatusText.ClientStatusStartsWithFour` | middleware/errorHandler.js:7 | the text of every status in 400–499 starts with '4' |
| `StatusText.ServerStatusDoesNotStartWithFour` | middleware/errorHandler.js:7 | the text of no status in 500–599 starts with '4' |
| `StatusText.IntText` | middleware/errorHandler.js:7 | the text of a status code is a minus sign exactly for negative codes, then decimal digits with no leading zero |
| `StatusText.IntTextRoundTrip` | middleware/errorHandler.js:7 | reading the text of an integer back as a number gives that integer, so the text determines the status code |
| `ErrorHandler.Normalize` | middleware/errorHandler.js:17-98 | without a code, status defaults to 500 and message and details pass through; with a code, details always carry that code as `error_code`, the status is one of 400/409/500/503, 503 exactly for the three connection codes and 409 exactly for `23505` |
| `ErrorHandler.NormalizeFollowsTable` | middleware/errorHandler.js:42-97 | the mapping agrees row by row with the SQLSTATE table, and every non-empty code outside the table gives 500 `'Erro interno do servidor'` |
| `ErrorHandler.MappedDetailsCarryDriverFields` | middleware/errorHandler.js:44-97 | each arm's details copy the driver fields it names: constraint and detail, column and table, detail, the fixed `'Serviço temporariamente indisponível'` note for connection codes, detail and hint otherwise |
| `ErrorHandler.CodeOverridesOwnFields` | middleware/errorHandler.js:42-97 | once a code is present, the error's own status code, message and details have no effect |
| `ErrorHandler.OtherConnectionCodeIsInternal` | middleware/errorHandler.js:79-96 | code `08001` is not a connection error here: 500 with the generic message |
| `ErrorHandler.UniqueViolationReply` | middleware/errorHandler.js:44-52 | a unique violation reaches the client as 409 with the duplicate-data message |
| `ErrorHandler.PlainErrorIsInternal` | middleware/errorHandler.js:17 | an error with no code and no status code becomes 500 with its own message |
| `ErrorHandler.GlobalErrorHandler` | middleware/errorHandler.js:100-117 | HTTP status equals the normalised status; envelope status is always `'error'`; message, timestamp, path and method always present; details present iff (development or operational) and details non-null; stack present iff development |
| `ErrorHandler.DatabaseErrorHidesDetails` | middleware/errorHandler.js:109-115 | outside development a driver error exposes neither details nor stack, whatever its code |
| `ErrorHandler.AppErrorPassesThrough` | middleware/errorHandler.js:100-117 | an AppError reaches the client with its own status, message and exactly its own details, in every environment |
| `ErrorHandler.NotFoundHandler` | middleware/errorHandler.js:121-124 | a 404 operational error with status `'fail'`, no details, and a message that embeds the requested URL at position 5 |
| `ErrorHandler.RouteNotFoundReply` | middleware/errorHandler.js:101-124 | an unmatched route is answered 404 with envelope status `'error'` although the error's status is `'fail'` |
| `Common.MissingFields` | controllers/studentsController.js:52-54 | a field is listed iff it is required and falsy, and the list keeps the order of the required names |
| `Common.DigitStringIsValidId` | controllers/studentsController.js:28 | every non-empty all-digit id passes the `!id \|\| isNaN(id)` guard |
| `Common.LettersAreNotAnId` | controllers/studentsController.js:28 | `"abc"`, `""` and a missing id fail the guard |
| `Common.ValidId` | controllers/studentsController.js:28 | an id passes the `!id \|\| isNaN(id)` guard only if it holds a digit and nothing but digits, points and signs; every non-empty digit string passes (the same guard is at studentsController.js lines 78 and 111 and postsController-old.js lines 28, 96 and 137) |
| `StudentsController.GetStudents` | controllers/studentsController.js:8-20 | 200 with exactly `{status: 'success', results: <count>, data: {students}}`, all returned students with `results` equal to their number; a driver error is passed on unchanged |
| `StudentsController.GetStudentById` | controllers/studentsController.js:25-44 | the model is called iff the id is valid, with that id; invalid id gives 400; empty lookup gives 404 with `{studentId: id}`; found gives 200 with exactly `{status: 'success', data: {student}}` |
| `StudentsController.CreateStudent` | controllers/studentsController.js:49-69 | the model is called iff no field is missing, with the body's name and email; otherwise one 400 carrying the full missing list; success is 201 with exactly `{status: 'success', message, data: {student}}` |
| `StudentsController.UpdateStudent` | controllers/studentsController.js:74-103 | id validation comes first, then the missing-field check, and only then the model call; empty result gives 404 with `{studentId: id}`; success is 200 with exactly `{status: 'success', message, data: {student}}` |
| `StudentsController.DeleteStudent` | controllers/studentsController.js:108-128 | model called iff id valid; empty result gives 404; success is 200 with exactly `{status: 'success', message, data: {student}}` holding the deleted record |
| `StudentsController.SearchStudents` | controllers/studentsController.js:133-154 | a falsy term is rejected before a short one; otherwise the model is searched with the term, the answer is exactly `{status: 'success', results, searchTerm, data: {students}}`, with `results` counting the matches and `searchTerm` echoing the term |
| `StudentsController.SearchAnswersLikeList` | controllers/studentsController.js:8-20 | an accepted search answers the same envelope as listing the matched rows would, plus the echoed `searchTerm`; a driver error is passed on alike |
| `StudentsController.MissingStudentFields` | controllers/studentsController.js:52-54 | the missing list is exactly `name` if falsy followed by `email` if falsy |
| `StudentsController.RejectionIgnoresStore` | controllers/studentsController.js:25-154 | a rejected request's outcome does not depend on anything the model could answer |
| `StudentsController.StudentNotFoundReply` | controllers/studentsController.js:36-38 | an empty lookup reaches the client as 404 with details `{studentId: id}` in every environment |
| `PostsControllerOld.GetPosts` | controllers/postsController-old.js:6-21 | 200 with exactly `{status: 'success', results, data: {posts}}`, `results` equal to the number of posts |
| `PostsControllerOld.GetPostById` | controllers/postsController-old.js:24-47 | model called iff id valid; invalid id 400; empty lookup 404 with `{postId: id}`; found gives 200 with exactly `{status: 'success', data: {post}}` |
| `PostsControllerOld.CreatePost` | controllers/postsController-old.js:50-88 | missing fields first (all listed), then title shorter than 3, then content shorter than 10, each with its own message; the model is called iff all pass; success is 201 with exactly `{status: 'success', message, data: {post}}` |
| `PostsControllerOld.UpdatePost` | controllers/postsController-old.js:91-130 | id check, then the missing-field check, no length checks, then the model; empty result 404 with `{postId: id}`; success is 200 with exactly `{status: 'success', message, data: {post}}` |
| `PostsControllerOld.DeletePost` | controllers/postsController-old.js:133-157 | model called iff id valid; success is 200 with exactly `{status: 'success', message, data: {deletedPost}}` holding the returned snapshot; empty result 404 |
| `PostsControllerOld.SearchPosts` | controllers/postsController-old.js:160-184 | a truthy term of length at least 2 is required; the answer is exactly `{status: 'success', results, searchTerm, data: {posts}}` |
| `PostsControllerOld.MissingPostFields` | controllers/postsController-old.js:54-57 | the missing list is `title`, `content`, `author`, each when falsy, in that order; it is empty iff all three are present |
| `PostsControllerOld.OnlyTitleMissesContentAndAuthor` | tests/postsController.test.js:125-139 | a body with only a title is rejected with `missingFields = ['content', 'author']` |
| `PostsControllerOld.CreatePostLengthBoundaries` | controllers/postsController-old.js:68-74 | title length 2 rejected, 3 accepted; content length 9 rejected, 10 accepted |
| `PostsControllerOld.RejectionIgnoresStore` | controllers/postsController-old.js:24-184 | a rejected request's outcome does not depend on anything the model could answer |
| `PostsController.GetPosts` | controllers/postsController.js:5-14 | 200 with the bare array; a model error gives 500 with the list message followed by the error's message |
| `PostsController.GetPostById` | controllers/postsController.js:17-31 | the raw id goes to the model unchecked; nothing found gives 404 `'Postagem não encontrada'`; found gives the bare record |
| `PostsController.CreatePost` | controllers/postsController.js:34-47 | 400 iff a field is falsy, before any model call; no length checks; success is 201 with the bare created record |
| `PostsController.UpdatePost` | controllers/postsController.js:50-68 | field check only, then the model with the unchecked id; nothing found gives 404; found gives the bare record |
| `PostsController.DeletePost` | controllers/postsController.js:71-84 | the raw id goes to the model; success answers only a message, not the record; nothing found gives 404 |
| `PostsController.SearchPosts` | controllers/postsController.js:87-99 | 400 only for a falsy term; any truthy term is searched; the matches are sent as they are |
| `PostsController.ModelErrorsAreCaught` | controllers/postsController.js:10-98 | whatever the model throws, each handler answers exactly `500 {error: <its fixed message>}` (the list handler appends the error's message) instead of reaching the global handler |
| `PostsController.RejectionIgnoresStore` | controllers/postsController.js:34-95 | a rejected create, update or search does not depend on anything the model could answer |
| `Variants.SameFieldPresence` | controllers/postsController-old.js:54-60 | the old controller's collected missing-field list is empty exactly when the live controller's `!title \|\| !content \|\| !author` test (postsController.js line 37) passes, and so exactly when the live create and update reach the model |
| `Variants.ShortTitleDivergence` | controllers/postsController-old.js:68-70 | a complete body with a short title is rejected by the old controller and handed to the model (an `InsertPost` call) by the live one |
| `Variants.NonNumericIdDivergence` | controllers/postsController-old.js:28-30 | a non-numeric id is rejected by the old controller and looked up by the live one |
| `Variants.ShortTermDivergence` | controllers/postsController-old.js:167-169 | a one-character term is rejected by the old controller and searched by the live one |
| `Variants.SameCallsWhenOldAccepts` | controllers/postsController-old.js:24-184 | for each of the six handlers, whenever the old controller reaches the model, the live one issues the identical call |
| `Variants.ListShapeDivergence` | controllers/postsController-old.js:14-20 | the same rows are an envelope with a count in the old controller and a bare array in the live one |
| `Variants.DeleteShapeDivergence` | controllers/postsController.js:71-84 | deleting an existing post: the old controller returns the row under `data.deletedPost` (postsController-old.js lines 150-156), the live one only `{message}`; a missing post is 404 from both |

## Left out

- The models (`models/postModel.js`, `models/studentModel.js`): each function is one SQL statement that PostgreSQL runs. Id generation, `RETURNING *`, `ILIKE` matching and ordering belong to the database. Their answers are oracle parameters.
- `controllers/teachersController.js`: it exports student-named handlers and refers to undefined names, so there is no coherent behaviour to model.
- `controllers/postsController-old.js` lines 185–211: stray text after the last handler that does not parse.
- `asyncHandler` and the `next` chain: promise plumbing. A handler's `Raise` outcome stands for the error reaching `globalErrorHandler`.
- Logging in `globalErrorHandler` and in the controllers: a side effect only.
- Timestamps: wall-clock time. The timestamp is a parameter of `ErrorHandler.GlobalErrorHandler`.
- Stack traces: the JavaScript runtime produces them. The envelope records only whether a stack is attached.
- `Common.ValidId`: models `isNaN` only for an optional sign followed by digits with at most one decimal point. Whitespace padding, an id of whitespace only (`Number("  ")` is 0), hexadecimal `0x…`, binary `0b…` and octal `0o…` literals, exponent and `Infinity` forms, which JavaScript also accepts, are not modelled.
- `ErrorHandler.AppError`: the status code is an exact integer written out in full digits. JavaScript's number-to-text rules are not modelled: a status code is a double, printed from 2^53 up with the shortest digits of the nearest double padded with zeros, and from 10^21 up in exponent form. The leading digit, which is all `AppError` reads, differs only from 10^21 up; the handlers only ever raise 400 and 404.
- JavaScript truthiness: a body or query field counts as missing when it is absent or the empty string. Non-string JSON values (numbers, arrays, a repeated `q`) are not modelled.
- String lengths count Unicode scalar values; JavaScript counts UTF-16 code units, so the two differ only for characters outside the Basic Multilingual Plane.
- Express glue (`app.js`, including its malformed-JSON middleware; `routes/*.js`; Swagger), configuration, migrations and test helpers: I/O and wiring with no decision logic.
- Store-level properties — unique generated ids, a create followed by a get returning the same fields, a second delete answering 404, case-insensitive substring search — hold or fail in the database, not in the controllers, and are not modelled.
- Express's own failure when `res.status` is given a status code outside the HTTP range is not modelled.

=== FILE: common.dfy ===
/** Shared vocabulary of the blog API model: optional values, the parts of an
    HTTP request the handlers read, JavaScript truthiness of request fields,
    the numeric-id guard, the missing-field collector and the success bodies
    the controllers send. */
module Common {

  /** `undefined` (or a missing key) versus a present value. */
  datatype Option<+T> = None | Some(value: T) {
    /** The value, or `default` when absent (a destructuring default). */
    function GetOr(default: T): T {
      match this
      case Some(v) => v
      case None => default
    }
  }

  /** The value stored under `k`, or `None` when the key is absent. */
  function Lookup(m: map<string, string>, k: string): (r: Option<string>)
    ensures r.Some? <==> k in m
    ensures r.Some? ==> r.value == m[k]
  {
    if k in m then Some(m[k]) else None
  }

  /** An HTTP request as the handlers see it: method (`httpMethod`), original URL, and the
      route parameters, query string and JSON body as string maps. */
  datatype Request = Request(
    httpMethod: string,
    originalUrl: string,
    params: map<string, string>,
    query: map<string, string>,
    body: map<string, string>)

  /** `req.params.id`. */
  function IdParam(req: Request): (r: Option<string>)
    ensures r.Some? <==> "id" in req.params
    ensures r.Some? ==> r.value == req.params["id"]
  {
    Lookup(req.params, "id")
  }

  /** `req.query.q`. */
  function QueryTerm(req: Request): (r: Option<string>)
    ensures r.Some? <==> "q" in req.query
    ensures r.Some? ==> r.value == req.query["q"]
  {
    Lookup(req.query, "q")
  }

  /** `req.body[name]`. */
  function BodyField(req: Request, name: string): (r: Option<string>)
    ensures r.Some? <==> name in req.body
    ensures r.Some? ==> r.value == req.body[name]
  {
    Lookup(req.body, name)
  }

  /** JavaScript truthiness of a string field: `undefined` and `''` are falsy. */
  predicate Truthy(f: Option<string>) {
    f.Some? && f.value != ""
  }

  /** The request body carries a truthy `title`, `content` and `author`, the
      fields a post is created or updated from. */
  predicate HasPostFields(req: Request) {
    Truthy(BodyField(req, "title")) && Truthy(BodyField(req, "content")) && Truthy(BodyField(req, "author"))
  }

  predicate IsDigit(c: char) {
    '0' <= c <= '9'
  }

  predicate AllDigits(s: string) {
    forall i :: 0 <= i < |s| ==> IsDigit(s[i])
  }

  /** Digits with at most one decimal point and at least one digit. */
  predicate IsUnsignedDecimal(t: string) {
    || (|t| > 0 && AllDigits(t))
    || (|t| > 1 && exists i :: 0 <= i < |t| && t[i] == '.' && AllDigits(t[..i]) && AllDigits(t[i + 1..]))
  }

  /** The decimal literals for which `isNaN` is false: an optional sign
      followed by an unsigned decimal. */
  predicate IsNumericText(s: string) {
    if |s| > 0 && (s[0] == '+' || s[0] == '-') then IsUnsignedDecimal(s[1..]) else IsUnsignedDecimal(s)
  }

  /** A character that can occur in a decimal literal: a digit, the point or a sign. */
  predicate IsNumberChar(c: char) {
    IsDigit(c) || c == '.' || c == '+' || c == '-'
  }

  /** The negation of the guard `!id || isNaN(id)` of the asyncHandler
      controllers. An accepted id holds a digit and only digits, points and
      signs; every non-empty string of digits is accepted. */
  predicate ValidId(id: Option<string>)
    ensures ValidId(id) ==> id.Some? && exists i :: 0 <= i < |id.value| && IsDigit(id.value[i])
    ensures ValidId(id) ==> forall i :: 0 <= i < |id.value| ==> IsNumberChar(id.value[i])
    ensures id.Some? && |id.value| > 0 && AllDigits(id.value) ==> ValidId(id)
  {
    if !Truthy(id) then false
    else
      NumericTextShape(id.value);
      IsNumericText(id.value)
  }

  /** Every character of an unsigned decimal is a digit or the point, and one is a digit. */
  lemma UnsignedDecimalShape(t: string)
    requires IsUnsignedDecimal(t)
    ensures exists i :: 0 <= i < |t| && IsDigit(t[i])
    ensures forall i :: 0 <= i < |t| ==> IsDigit(t[i]) || t[i] == '.'
  {
    if |t| > 0 && AllDigits(t) {
      assert IsDigit(t[0]);
    } else {
      var k :| 0 <= k < |t| && t[k] == '.' && AllDigits(t[..k]) && AllDigits(t[k + 1..]);
      if k > 0 {
        assert IsDigit(t[..k][0]);
        assert IsDigit(t[0]);
      } else {
        assert IsDigit(t[k + 1..][0]);
        assert IsDigit(t[1]);
      }
      forall i | 0 <= i < |t|
        ensures IsDigit(t[i]) || t[i] == '.'
      {
        if i < k {
          assert t[i] == t[..k][i];
        } else if i > k {
          assert t[i] == t[k + 1..][i - k - 1];
        }
      }
    }
  }

  /** The shape of a decimal literal `isNaN` accepts: a digit somewhere, and
      only digits, points and signs. */
  lemma NumericTextShape(s: string)
    ensures IsNumericText(s) ==> exists i :: 0 <= i < |s| && IsDigit(s[i])
    ensures IsNumericText(s) ==> forall i :: 0 <= i < |s| ==> IsNumberChar(s[i])
    ensures |s| > 0 && AllDigits(s) ==> IsNumericText(s)
  {
    if |s| > 0 && AllDigits(s) {
      assert IsDigit(s[0]);
    }
    if IsNumericText(s) {
      if |s| > 0 && (s[0] == '+' || s[0] == '-') {
        var u := s[1..];
        UnsignedDecimalShape(u);
        var j :| 0 <= j < |u| && IsDigit(u[j]);
        assert IsDigit(s[j + 1]);
        forall i | 0 <= i < |s|
          ensures IsNumberChar(s[i])
        {
          if i > 0 {
            assert s[i] == u[i - 1];
          }
        }
      } else {
        UnsignedDecimalShape(s);
      }
    }
  }

  /** Every non-empty string of digits is accepted as an id. */
  lemma DigitStringIsValidId(s: string)
    requires |s| > 0 && AllDigits(s)
    ensures ValidId(Some(s))
  {
    assert IsDigit(s[0]);
  }

  /** A string of letters is rejected as an id. */
  lemma LettersAreNotAnId()
    ensures !ValidId(Some("abc"))
    ensures !ValidId(None) && !ValidId(Some(""))
  {
    var t := "abc";
    assert !IsDigit(t[0]);
    assert !AllDigits(t);
    assert forall i :: 0 <= i < |t| ==> t[i] != '.';
  }

  /** `a` can be obtained from `b` by deleting elements: same elements, same order. */
  predicate IsSubsequence<T(==)>(a: seq<T>, b: seq<T>)
    decreases |b|
  {
    if a == [] then true
    else if b == [] then false
    else (a[0] == b[0] && IsSubsequence(a[1..], b[1..])) || IsSubsequence(a, b[1..])
  }

  /** The `missingFields` list the controllers build: each name of `required`
      whose body field is falsy, pushed in the order `required` lists them. */
  function MissingFields(body: map<string, string>, required: seq<string>): (m: seq<string>)
    ensures forall f :: f in m <==> f in required && !Truthy(Lookup(body, f))
    ensures IsSubsequence(m, required)
    ensures |m| <= |required|
  {
    if required == [] then []
    else
      var rest := MissingFields(body, required[1..]);
      assert forall f :: f in required <==> f == required[0] || f in required[1..];
      if Truthy(Lookup(body, required[0])) then rest
      else
        assert ([required[0]] + rest)[1..] == rest;
        [required[0]] + rest
  }

  /** What `data.<key>` holds: one record or an array of records. */
  datatype Payload<+R> = One(record: R) | Many(records: seq<R>)

  /** A JSON response body.
      `Envelope` is `{status: 'success', message?, results?, searchTerm?, data: {<key>: payload}}`;
      `Bare` is the record or array itself; `MessageBody` is `{message}`;
      `ErrorBody` is `{error}`. */
  datatype Body<+R> =
    | Envelope(message: Option<string>, results: Option<nat>, searchTerm: Option<string>, key: string, data: Payload<R>)
    | Bare(payload: Payload<R>)
    | MessageBody(text: string)
    | ErrorBody(error: string)

  /** An HTTP status and a body. */
  datatype Response<+R> = Response(statusCode: int, body: Body<R>)

  /** One run of a handler against a data-layer oracle: the data-layer call it
      issued (`None` when it stopped before reaching the store) and what it
      produced. */
  datatype Run<+C, +O> = Run(call: Option<C>, result: O)

  /** Messages both asyncHandler controllers raise with the same text. */
  const InvalidIdMessage := "ID inválido. Deve ser um número"
  const MissingFieldsMessage := "Campos obrigatórios não informados"
  const QueryRequiredMessage := "Parâmetro \"q\" é obrigatório para busca"
  const QueryTooShortMessage := "Termo de busca deve ter pelo menos 2 caracteres"
}

=== FILE: error_handler.dfy ===
/** The error normaliser of middleware/errorHandler.js: the `AppError`
    constructor, the SQLSTATE-to-HTTP mapping of `globalErrorHandler`, the
    error envelope with its exposure rule, and `notFoundHandler`. */
module ErrorHandler {
  import opened Common
  import opened StatusText

  /** The optional fields a node-postgres error carries besides its SQLSTATE code. */
  datatype PgFields = PgFields(
    constraint: Option<string>,
    detail: Option<string>,
    hint: Option<string>,
    column: Option<string>,
    table: Option<string>)

  const NoPgFields := PgFields(None, None, None, None, None)

  /** The `details` records that are ever attached to an error. The last four
      are the ones the database mapping builds; each carries `error_code`. */
  datatype Details =
    | Missing(missingFields: seq<string>)
    | StudentId(studentId: string)
    | PostId(postId: string)
    | ConstraintDetails(errorCode: string, constraint: Option<string>, detail: Option<string>)
    | ColumnDetails(errorCode: string, column: Option<string>, table: Option<string>)
    | CodeDetails(errorCode: string, detail: Option<string>)
    | HintDetails(errorCode: string, detail: Option<string>, hint: Option<string>)
  {
    /** Built by the database mapping of `globalErrorHandler`. */
    predicate FromDatabase() {
      ConstraintDetails? || ColumnDetails? || CodeDetails? || HintDetails?
    }
  }

  /** Anything a handler throws: an `AppError`, a node-postgres error or a
      plain `Error`. `code` is `""` when the error carries no (truthy) code;
      `statusCode` and `status` are `None` when the property is undefined. */
  datatype Err = Err(
    message: string,
    statusCode: Option<int>,
    status: Option<string>,
    isOperational: bool,
    details: Option<Details>,
    code: string,
    pg: PgFields)

  /** `new AppError(message, statusCode, details)`: `status` is `'fail'` when
      the decimal text of `statusCode` starts with '4' and `'error'` otherwise.
      The status code is an exact integer written out in full; JavaScript's
      rounding of numbers from 2^53 up and its exponent form from 10^21 up are
      not modelled (only the latter can change the leading digit). */
  function AppError(message: string, statusCode: int, details: Option<Details>): (e: Err)
    ensures e.status == Some("fail") <==> LeadsWithFour(statusCode)
    ensures e.status == Some("fail") || e.status == Some("error")
    ensures e.isOperational && e.code == ""
    ensures e.statusCode == Some(statusCode) && e.message == message && e.details == details
  {
    StatusTextRule(statusCode);
    var status := if StartsWithFour(IntText(statusCode)) then "fail" else "error";
    Err(message, Some(statusCode), Some(status), true, details, "", NoPgFields)
  }

  /** An error thrown by the node-postgres driver: it has a SQLSTATE code but no
      `statusCode`, `status`, `details` or `isOperational`. */
  function PgError(message: string, code: string, pg: PgFields): (e: Err)
    ensures !e.isOperational && e.statusCode.None? && e.status.None? && e.details.None?
    ensures e.message == message && e.code == code && e.pg == pg
  {
    Err(message, None, None, false, None, code, pg)
  }

  /** Every 4xx `AppError` has status `'fail'` and every 5xx one `'error'`. */
  lemma AppErrorStatusByClass(message: string, statusCode: int, details: Option<Details>)
    ensures 400 <= statusCode <= 499 ==> AppError(message, statusCode, details).status == Some("fail")
    ensures 500 <= statusCode <= 599 ==> AppError(message, statusCode, details).status == Some("error")
  {
    if 400 <= statusCode <= 499 {
      ClientStatusStartsWithFour(statusCode);
      StatusTextRule(statusCode);
    }
    if 500 <= statusCode <= 599 {
      ServerStatusDoesNotStartWithFour(statusCode);
      StatusTextRule(statusCode);
    }
  }

  const UniqueViolation := "23505"
  const ForeignKeyViolation := "23503"
  const NotNullViolation := "23502"
  const InvalidTextRepresentation := "22P02"
  const ConnectionException := "08000"
  const ConnectionDoesNotExist := "08003"
  const ConnectionFailure := "08006"

  const DuplicateMessage := "Dados duplicados encontrados"
  const InvalidReferenceMessage := "Referência inválida encontrada"
  const RequiredColumnMessage := "Campo obrigatório não informado"
  const InvalidFormatMessage := "Formato de dados inválido"
  const ConnectionMessage := "Erro de conexão com o banco de dados"
  const InternalMessage := "Erro interno do servidor"
  const UnavailableDetail := "Serviço temporariamente indisponível"

  /** The status, message and details `globalErrorHandler` settles on. */
  datatype Normalized = Normalized(statusCode: int, message: string, details: Option<Details>)

  /** The `if (err.code) switch (err.code)` of `globalErrorHandler`, starting
      from `let { statusCode = 500, message, details } = err`. */
  function Normalize(e: Err): (n: Normalized)
    ensures e.code == "" ==> n.statusCode == e.statusCode.GetOr(500) && n.message == e.message && n.details == e.details
    ensures e.code != "" ==> n.details.Some? && n.details.value.FromDatabase() && n.details.value.errorCode == e.code
    ensures e.code != "" ==> n.statusCode in {400, 409, 500, 503}
    ensures e.code != "" ==> (n.statusCode == 503 <==> e.code in {ConnectionException, ConnectionDoesNotExist, ConnectionFailure})
    ensures e.code != "" ==> (n.statusCode == 409 <==> e.code == UniqueViolation)
  {
    if e.code == "" then
      Normalized(e.statusCode.GetOr(500), e.message, e.details)
    else if e.code == UniqueViolation then
      Normalized(409, DuplicateMessage, Some(ConstraintDetails(e.code, e.pg.constraint, e.pg.detail)))
    else if e.code == ForeignKeyViolation then
      Normalized(400, InvalidReferenceMessage, Some(ConstraintDetails(e.code, e.pg.constraint, e.pg.detail)))
    else if e.code == NotNullViolation then
      Normalized(400, RequiredColumnMessage, Some(ColumnDetails(e.code, e.pg.column, e.pg.table)))
    else if e.code == InvalidTextRepresentation then
      Normalized(400, InvalidFormatMessage, Some(CodeDetails(e.code, e.pg.detail)))
    else if e.code == ConnectionException || e.code == ConnectionDoesNotExist || e.code == ConnectionFailure then
      Normalized(503, ConnectionMessage, Some(CodeDetails(e.code, Some(UnavailableDetail))))
    else
      Normalized(500, InternalMessage, Some(HintDetails(e.code, e.pg.detail, e.pg.hint)))
  }

  /** One row of the SQLSTATE table: code, HTTP status, message. */
  datatype TableRow = TableRow(code: string, statusCode: int, message: string)

  /** The mapping of Appendix A SQLSTATE codes, written as data. */
  const SqlStateTable: seq<TableRow> := [
    TableRow(UniqueViolation, 409, DuplicateMessage),
    TableRow(ForeignKeyViolation, 400, InvalidReferenceMessage),
    TableRow(NotNullViolation, 400, RequiredColumnMessage),
    TableRow(InvalidTextRepresentation, 400, InvalidFormatMessage),
    TableRow(ConnectionException, 503, ConnectionMessage),
    TableRow(ConnectionDoesNotExist, 503, ConnectionMessage),
    TableRow(ConnectionFailure, 503, ConnectionMessage)
  ]

  /** `Normalize` agrees with the table on every listed code and sends every
      other non-empty code to 500 with the generic message. */
  lemma NormalizeFollowsTable(e: Err)
    requires e.code != ""
    ensures forall i :: 0 <= i < |SqlStateTable| && SqlStateTable[i].code == e.code ==>
      Normalize(e).statusCode == SqlStateTable[i].statusCode && Normalize(e).message == SqlStateTable[i].message
    ensures (forall i :: 0 <= i < |SqlStateTable| ==> SqlStateTable[i].code != e.code) ==>
      Normalize(e).statusCode == 500 && Normalize(e).message == InternalMessage
  {
    if forall i :: 0 <= i < |SqlStateTable| ==> SqlStateTable[i].code != e.code {
      var codes := seq(|SqlStateTable|, i requires 0 <= i < |SqlStateTable| => SqlStateTable[i].code);
      assert codes == [UniqueViolation, ForeignKeyViolation, NotNullViolation, InvalidTextRepresentation,
                       ConnectionException, ConnectionDoesNotExist, ConnectionFailure];
      assert e.code !in codes;
    }
  }

  /** Which driver fields each arm copies into `details`: constraint and
      detail for the two constraint violations, column and table for a
      not-null violation, detail for a bad text representation, the fixed
      unavailability note for a connection error, detail and hint otherwise. */
  lemma MappedDetailsCarryDriverFields(e: Err)
    requires e.code != ""
    ensures e.code == UniqueViolation || e.code == ForeignKeyViolation ==>
      Normalize(e).details == Some(ConstraintDetails(e.code, e.pg.constraint, e.pg.detail))
    ensures e.code == NotNullViolation ==> Normalize(e).details == Some(ColumnDetails(e.code, e.pg.column, e.pg.table))
    ensures e.code == InvalidTextRepresentation ==> Normalize(e).details == Some(CodeDetails(e.code, e.pg.detail))
    ensures e.code in {ConnectionException, ConnectionDoesNotExist, ConnectionFailure} ==>
      Normalize(e).details == Some(CodeDetails(e.code, Some(UnavailableDetail)))
    ensures (forall i :: 0 <= i < |SqlStateTable| ==> SqlStateTable[i].code != e.code) ==>
      Normalize(e).details == Some(HintDetails(e.code, e.pg.detail, e.pg.hint))
  {
    NormalizeFollowsTable(e);
  }

  /** Once a code is present, the error's own status code, message and details
      are ignored: two errors with the same code and driver fields normalise alike. */
  lemma CodeOverridesOwnFields(e1: Err, e2: Err)
    requires e1.code == e2.code != "" && e1.pg == e2.pg
    ensures Normalize(e1) == Normalize(e2)
  {
  }

  /** Only three codes of class 08 are connection errors here: 08001 (unable to
      establish a connection) falls to the generic 500 arm. */
  lemma OtherConnectionCodeIsInternal(message: string, pg: PgFields)
    ensures Normalize(PgError(message, "08001", pg)).statusCode == 500
    ensures Normalize(PgError(message, "08001", pg)).message == InternalMessage
  {
  }

  /** The JSON body `globalErrorHandler` sends: `{status, message, timestamp,
      path, method, details?, stack?}`. The stack text itself is not modelled,
      only whether it is attached. */
  datatype ErrorEnvelope = ErrorEnvelope(
    status: string,
    message: string,
    timestamp: string,
    path: string,
    httpMethod: string,
    details: Option<Details>,
    hasStack: bool)

  /** `res.status(statusCode).json(errorResponse)`. */
  datatype ErrorReply = ErrorReply(statusCode: int, body: ErrorEnvelope)

  const Development := "development"

  /** `globalErrorHandler(err, req, res, next)` under `NODE_ENV = nodeEnv`, at
      wall-clock time `now`. */
  function GlobalErrorHandler(e: Err, req: Request, nodeEnv: string, now: string): (r: ErrorReply)
    ensures r.statusCode == Normalize(e).statusCode
    ensures r.body.status == "error"
    ensures r.body.message == Normalize(e).message
    ensures r.body.timestamp == now && r.body.path == req.originalUrl && r.body.httpMethod == req.httpMethod
    ensures r.body.details.Some? <==> (nodeEnv == Development || e.isOperational) && Normalize(e).details.Some?
    ensures r.body.details.Some? ==> r.body.details == Normalize(e).details
    ensures r.body.hasStack <==> nodeEnv == Development
  {
    var n := Normalize(e);
    var base := ErrorEnvelope("error", n.message, now, req.originalUrl, req.httpMethod, None, false);
    var body :=
      if nodeEnv == Development || e.isOperational then
        var withDetails := if n.details.Some? then base.(details := n.details) else base;
        if nodeEnv == Development then withDetails.(hasStack := true) else withDetails
      else base;
    ErrorReply(n.statusCode, body)
  }

  /** Outside development, an error the driver threw never exposes the mapped
      details nor a stack, whatever its code. */
  lemma DatabaseErrorHidesDetails(message: string, code: string, pg: PgFields, req: Request, nodeEnv: string, now: string)
    requires nodeEnv != Development
    ensures GlobalErrorHandler(PgError(message, code, pg), req, nodeEnv, now).body.details.None?
    ensures !GlobalErrorHandler(PgError(message, code, pg), req, nodeEnv, now).body.hasStack
  {
  }

  /** An `AppError` reaches the client with its own status code and message
      and, in every environment, with exactly its own details. */
  lemma AppErrorPassesThrough(message: string, statusCode: int, details: Option<Details>, req: Request, nodeEnv: string, now: string)
    ensures GlobalErrorHandler(AppError(message, statusCode, details), req, nodeEnv, now).statusCode == statusCode
    ensures GlobalErrorHandler(AppError(message, statusCode, details), req, nodeEnv, now).body.message == message
    ensures GlobalErrorHandler(AppError(message, statusCode, details), req, nodeEnv, now).body.details == details
  {
  }

  /** A unique violation from the driver reaches the client as 409 with the
      duplicate-data message, even when something had set a status code. */
  lemma UniqueViolationReply(e: Err, req: Request, nodeEnv: string, now: string)
    requires e.code == UniqueViolation
    ensures GlobalErrorHandler(e, req, nodeEnv, now).statusCode == 409
    ensures GlobalErrorHandler(e, req, nodeEnv, now).body.message == DuplicateMessage
  {
  }

  /** An error with neither a code nor a status code becomes a 500 carrying its own message. */
  lemma PlainErrorIsInternal(e: Err, req: Request, nodeEnv: string, now: string)
    requires e.code == "" && e.statusCode.None?
    ensures GlobalErrorHandler(e, req, nodeEnv, now).statusCode == 500
    ensures GlobalErrorHandler(e, req, nodeEnv, now).body.message == e.message
  {
  }

  /** `notFoundHandler`: a 404 `AppError` naming the requested URL. */
  function NotFoundHandler(req: Request): (e: Err)
    ensures e.statusCode == Some(404) && e.status == Some("fail")
    ensures e.isOperational && e.code == "" && e.details.None?
    ensures |e.message| == |req.originalUrl| + 20
    ensures e.message[5..5 + |req.originalUrl|] == req.originalUrl
  {
    AppErrorStatusByClass("Rota " + req.originalUrl + " não encontrada", 404, None);
    AppError("Rota " + req.originalUrl + " não encontrada", 404, None)
  }

  /** An unmatched route reaches the client as 404 whose envelope status is
      still `'error'`, although the error itself has status `'fail'`. */
  lemma RouteNotFoundReply(req: Request, nodeEnv: string, now: string)
    ensures GlobalErrorHandler(NotFoundHandler(req), req, nodeEnv, now).statusCode == 404
    ensures GlobalErrorHandler(NotFoundHandler(req), req, nodeEnv, now).body.status == "error"
    ensures NotFoundHandler(req).status == Some("fail")
    ensures GlobalErrorHandler(NotFoundHandler(req), req, nodeEnv, now).body.details.None?
  {
  }

  /** What an asyncHandler-wrapped controller does: answer the request, or pass
      an error to `next` (and so to `globalErrorHandler`). */
  datatype Outcome<+R> = Respond(response: Response<R>) | Raise(error: Err)

  /** The handler raised an operational error with this status code and
      message and no SQLSTATE code, so `globalErrorHandler` answers with that
      status code and message. */
  predicate Raised<R>(o: Outcome<R>, statusCode: int, message: string) {
    && o.Raise?
    && o.error.statusCode == Some(statusCode)
    && o.error.message == message
    && o.error.isOperational
    && o.error.code == ""
  }

  /** The handler answered `statusCode` with exactly this success envelope:
      `{status: 'success', message?, results?, searchTerm?, data: {<key>: payload}}`,
      an absent member being `None`. */
  predicate SentEnvelope<R(==)>(o: Outcome<R>, statusCode: int, message: Option<string>, results: Option<nat>,
                                searchTerm: Option<string>, key: string, payload: Payload<R>) {
    && o.Respond?
    && o.response.statusCode == statusCode
    && o.response.body == Envelope(message, results, searchTerm, key, payload)
  }
}

=== FILE: posts_controller.dfy ===
/** controllers/postsController.js, the posts handlers the routes actually use.
    Each catches the model's errors itself and answers 500 with a fixed
    message, so nothing reaches `globalErrorHandler`; ids are not validated,
    create and update only check that the three fields are truthy, search has
    no minimum length, and successes send the bare record or array. */
module PostsController {
  import opened Common
  import opened ErrorHandler
  import opened Store

  const NotFoundMessage := "Postagem não encontrada"
  const FieldsRequiredMessage := "Campos obrigatórios: title, content, author"
  const DeletedMessage := "Postagem deletada com sucesso"
  const ListFailedPrefix := "Erro ao listar postagens "
  const GetFailedMessage := "Erro ao obter postagem"
  const CreateFailedMessage := "Erro ao criar postagem"
  const UpdateFailedMessage := "Erro ao atualizar postagem"
  const DeleteFailedMessage := "Erro ao deletar postagem"
  const SearchFailedMessage := "Erro ao buscar postagens"

  /** A live handler never raises: it always answers with a response. */
  type LiveRun = Run<PostCall, Response<Post>>

  /** The response is `{error: message}` with this status. */
  predicate SentError(r: Response<Post>, statusCode: int, message: string) {
    r.statusCode == statusCode && r.body == ErrorBody(message)
  }

  /** `getPosts`: the bare array, or 500 with the driver's message appended. */
  function GetPosts(store: StoreResult<seq<Post>>): (r: LiveRun)
    ensures r.call == Some(ListPosts)
    ensures store.Returned? ==> r.result.statusCode == 200 && r.result.body == Bare(Many(store.value))
    ensures store.Threw? ==> SentError(r.result, 500, ListFailedPrefix + store.error.message)
  {
    var response := match store
      case Threw(e) => Response(500, ErrorBody(ListFailedPrefix + e.message))
      case Returned(posts) => Response(200, Bare(Many(posts)));
    Run(Some(ListPosts), response)
  }

  /** `getPostById`: the id goes to the model unchecked. */
  function GetPostById(req: Request, store: StoreResult<Option<Post>>): (r: LiveRun)
    ensures r.call == Some(FindPost(IdParam(req)))
    ensures store.Threw? ==> SentError(r.result, 500, GetFailedMessage)
    ensures store == Returned(None) ==> SentError(r.result, 404, NotFoundMessage)
    ensures store.Returned? && store.value.Some? ==> r.result.statusCode == 200 && r.result.body == Bare(One(store.value.value))
  {
    var response := match store
      case Threw(_) => Response(500, ErrorBody(GetFailedMessage))
      case Returned(None) => Response(404, ErrorBody(NotFoundMessage))
      case Returned(Some(post)) => Response(200, Bare(One(post)));
    Run(Some(FindPost(IdParam(req))), response)
  }

  /** `createPost`: 400 when a field is falsy, else 201 with the bare created row. */
  function CreatePost(req: Request, store: StoreResult<Post>): (r: LiveRun)
    ensures r.call.Some? <==> HasPostFields(req)
    ensures r.call.None? ==> SentError(r.result, 400, FieldsRequiredMessage)
    ensures r.call.Some? ==>
      r.call.value == InsertPost(BodyField(req, "title").value, BodyField(req, "content").value, BodyField(req, "author").value)
    ensures r.call.Some? && store.Threw? ==> SentError(r.result, 500, CreateFailedMessage)
    ensures r.call.Some? && store.Returned? ==> r.result.statusCode == 201 && r.result.body == Bare(One(store.value))
  {
    if !HasPostFields(req) then
      Run(None, Response(400, ErrorBody(FieldsRequiredMessage)))
    else
      var call := InsertPost(BodyField(req, "title").value, BodyField(req, "content").value, BodyField(req, "author").value);
      var response := match store
        case Threw(_) => Response(500, ErrorBody(CreateFailedMessage))
        case Returned(post) => Response(201, Bare(One(post)));
      Run(Some(call), response)
  }

  /** `updatePost`: the field check, then the model with the unchecked id. */
  function UpdatePost(req: Request, store: StoreResult<Option<Post>>): (r: LiveRun)
    ensures r.call.Some? <==> HasPostFields(req)
    ensures r.call.None? ==> SentError(r.result, 400, FieldsRequiredMessage)
    ensures r.call.Some? ==>
      r.call.value == ModifyPost(IdParam(req), BodyField(req, "title").value, BodyField(req, "content").value, BodyField(req, "author").value)
    ensures r.call.Some? && store.Threw? ==> SentError(r.result, 500, UpdateFailedMessage)
    ensures r.call.Some? && store == Returned(None) ==> SentError(r.result, 404, NotFoundMessage)
    ensures r.call.Some? && store.Returned? && store.value.Some? ==>
      r.result.statusCode == 200 && r.result.body == Bare(One(store.value.value))
  {
    if !HasPostFields(req) then
      Run(None, Response(400, ErrorBody(FieldsRequiredMessage)))
    else
      var call := ModifyPost(IdParam(req), BodyField(req, "title").value, BodyField(req, "content").value, BodyField(req, "author").value);
      var response := match store
        case Threw(_) => Response(500, ErrorBody(UpdateFailedMessage))
        case Returned(None) => Response(404, ErrorBody(NotFoundMessage))
        case Returned(Some(post)) => Response(200, Bare(One(post)));
      Run(Some(call), response)
  }

  /** `deletePost`: success answers only a message, never the deleted row. */
  function DeletePost(req: Request, store: StoreResult<Option<Post>>): (r: LiveRun)
    ensures r.call == Some(RemovePost(IdParam(req)))
    ensures store.Threw? ==> SentError(r.result, 500, DeleteFailedMessage)
    ensures store == Returned(None) ==> SentError(r.result, 404, NotFoundMessage)
    ensures store.Returned? && store.value.Some? ==> r.result.statusCode == 200 && r.result.body == MessageBody(DeletedMessage)
  {
    var response := match store
      case Threw(_) => Response(500, ErrorBody(DeleteFailedMessage))
      case Returned(None) => Response(404, ErrorBody(NotFoundMessage))
      case Returned(Some(_)) => Response(200, MessageBody(DeletedMessage));
    Run(Some(RemovePost(IdParam(req))), response)
  }

  /** `searchPosts`: only a falsy term is rejected; the matches are sent as they are. */
  function SearchPosts(req: Request, store: StoreResult<seq<Post>>): (r: LiveRun)
    ensures r.call.Some? <==> Truthy(QueryTerm(req))
    ensures r.call.None? ==> SentError(r.result, 400, QueryRequiredMessage)
    ensures r.call.Some? ==> r.call.value == MatchPosts(QueryTerm(req).value)
    ensures r.call.Some? && store.Threw? ==> SentError(r.result, 500, SearchFailedMessage)
    ensures r.call.Some? && store.Returned? ==> r.result.statusCode == 200 && r.result.body == Bare(Many(store.value))
  {
    var q := QueryTerm(req);
    if !Truthy(q) then
      Run(None, Response(400, ErrorBody(QueryRequiredMessage)))
    else
      var response := match store
        case Threw(_) => Response(500, ErrorBody(SearchFailedMessage))
        case Returned(posts) => Response(200, Bare(Many(posts)));
      Run(Some(MatchPosts(q.value)), response)
  }

  /** Whatever the model throws, every live handler answers 500 with its own
      fixed message: the driver's code never decides the status. */
  lemma ModelErrorsAreCaught(req: Request, e: Err)
    ensures GetPosts(Threw(e)).result == Response(500, ErrorBody(ListFailedPrefix + e.message))
    ensures GetPostById(req, Threw(e)).result == Response(500, ErrorBody(GetFailedMessage))
    ensures DeletePost(req, Threw(e)).result == Response(500, ErrorBody(DeleteFailedMessage))
    ensures HasPostFields(req) ==> CreatePost(req, Threw(e)).result == Response(500, ErrorBody(CreateFailedMessage))
    ensures HasPostFields(req) ==> UpdatePost(req, Threw(e)).result == Response(500, ErrorBody(UpdateFailedMessage))
    ensures Truthy(QueryTerm(req)) ==> SearchPosts(req, Threw(e)).result == Response(500, ErrorBody(SearchFailedMessage))
  {
  }

  /** A handler that rejects the request has not consulted the model. */
  lemma RejectionIgnoresStore(req: Request, a: StoreResult<Option<Post>>, b: StoreResult<Option<Post>>,
                              c: StoreResult<Post>, d: StoreResult<Post>,
                              s: StoreResult<seq<Post>>, t: StoreResult<seq<Post>>)
    ensures UpdatePost(req, a).call.None? ==> UpdatePost(req, a) == UpdatePost(req, b)
    ensures CreatePost(req, c).call.None? ==> CreatePost(req, c) == CreatePost(req, d)
    ensures SearchPosts(req, s).call.None? ==> SearchPosts(req, s) == SearchPosts(req, t)
  {
  }
}

=== FILE: posts_controller_old.dfy ===
/** controllers/postsController-old.js (its first 184 lines): the
    asyncHandler/`AppError` variant of the posts handlers. It differs from the
    students controller in its keys and messages, in the length checks of
    create, and in returning the deleted row under `data.deletedPost`. */
module PostsControllerOld {
  import opened Common
  import opened ErrorHandler
  import opened Store

  const NotFoundMessage := "Post não encontrado"
  const CreatedMessage := "Post criado com sucesso"
  const UpdatedMessage := "Post atualizado com sucesso"
  const DeletedMessage := "Post deletado com sucesso"
  const TitleTooShortMessage := "Título deve ter pelo menos 3 caracteres"
  const ContentTooShortMessage := "Conteúdo deve ter pelo menos 10 caracteres"

  /** The body fields create and update require, in the order they are checked. */
  const RequiredFields := ["title", "content", "author"]

  const MinTitleLength := 3
  const MinContentLength := 10

  type PostRun = Run<PostCall, Outcome<Post>>

  /** `getPosts`: every post, with `results` counting them. */
  function GetPosts(store: StoreResult<seq<Post>>): (r: PostRun)
    ensures r.call == Some(ListPosts)
    ensures store.Threw? ==> r.result == Raise(store.error)
    ensures store.Returned? ==> SentEnvelope(r.result, 200, None, Some(|store.value|), None, "posts", Many(store.value))
  {
    var outcome := match store
      case Threw(e) => Raise(e)
      case Returned(posts) => Respond(Response(200, Envelope(None, Some(|posts|), None, "posts", Many(posts))));
    Run(Some(ListPosts), outcome)
  }

  /** `getPostById`: the id is checked before the model is asked. */
  function GetPostById(req: Request, store: StoreResult<Option<Post>>): (r: PostRun)
    ensures r.call.Some? <==> ValidId(IdParam(req))
    ensures r.call.Some? ==> r.call.value == FindPost(IdParam(req))
    ensures r.call.None? ==> Raised(r.result, 400, InvalidIdMessage) && r.result.error.details.None?
    ensures r.call.Some? && store.Threw? ==> r.result == Raise(store.error)
    ensures r.call.Some? && store == Returned(None) ==>
      Raised(r.result, 404, NotFoundMessage) && r.result.error.details == Some(PostId(IdParam(req).value))
    ensures r.call.Some? && store.Returned? && store.value.Some? ==>
      SentEnvelope(r.result, 200, None, None, None, "post", One(store.value.value))
  {
    var id := IdParam(req);
    if !ValidId(id) then
      Run(None, Raise(AppError(InvalidIdMessage, 400, None)))
    else
      var outcome := match store
        case Threw(e) => Raise(e)
        case Returned(None) => Raise(AppError(NotFoundMessage, 404, Some(PostId(id.value))))
        case Returned(Some(post)) => Respond(Response(200, Envelope(None, None, None, "post", One(post))));
      Run(Some(FindPost(id)), outcome)
  }

  /** `createPost`: missing fields first (all of them at once), then a short
      title, then short content; the model is asked only when all pass. */
  function CreatePost(req: Request, store: StoreResult<Post>): (r: PostRun)
    ensures r.call.Some? <==>
      HasPostFields(req)
      && |BodyField(req, "title").value| >= MinTitleLength
      && |BodyField(req, "content").value| >= MinContentLength
    ensures r.call.Some? ==>
      r.call.value == InsertPost(BodyField(req, "title").value, BodyField(req, "content").value, BodyField(req, "author").value)
    ensures !HasPostFields(req) ==>
      Raised(r.result, 400, MissingFieldsMessage) && r.result.error.details == Some(Missing(MissingFields(req.body, RequiredFields)))
    ensures HasPostFields(req) && |BodyField(req, "title").value| < MinTitleLength ==>
      Raised(r.result, 400, TitleTooShortMessage) && r.result.error.details.None?
    ensures (HasPostFields(req) && |BodyField(req, "title").value| >= MinTitleLength
             && |BodyField(req, "content").value| < MinContentLength) ==>
      Raised(r.result, 400, ContentTooShortMessage) && r.result.error.details.None?
    ensures r.call.Some? && store.Threw? ==> r.result == Raise(store.error)
    ensures r.call.Some? && store.Returned? ==>
      SentEnvelope(r.result, 201, Some(CreatedMessage), None, None, "post", One(store.value))
  {
    MissingPostFields(req);
    var missing := MissingFields(req.body, RequiredFields);
    if missing != [] then
      Run(None, Raise(AppError(MissingFieldsMessage, 400, Some(Missing(missing)))))
    else
      var title := BodyField(req, "title").value;
      var content := BodyField(req, "content").value;
      var author := BodyField(req, "author").value;
      if |title| < MinTitleLength then
        Run(None, Raise(AppError(TitleTooShortMessage, 400, None)))
      else if |content| < MinContentLength then
        Run(None, Raise(AppError(ContentTooShortMessage, 400, None)))
      else
        var outcome := match store
          case Threw(e) => Raise(e)
          case Returned(post) => Respond(Response(201, Envelope(Some(CreatedMessage), None, None, "post", One(post))));
        Run(Some(InsertPost(title, content, author)), outcome)
  }

  /** `updatePost`: the id, then the missing-field check, and no length checks. */
  function UpdatePost(req: Request, store: StoreResult<Option<Post>>): (r: PostRun)
    ensures r.call.Some? <==> ValidId(IdParam(req)) && HasPostFields(req)
    ensures r.call.Some? ==>
      r.call.value == ModifyPost(IdParam(req), BodyField(req, "title").value, BodyField(req, "content").value, BodyField(req, "author").value)
    ensures !ValidId(IdParam(req)) ==> Raised(r.result, 400, InvalidIdMessage) && r.result.error.details.None?
    ensures ValidId(IdParam(req)) && !HasPostFields(req) ==>
      Raised(r.result, 400, MissingFieldsMessage) && r.result.error.details == Some(Missing(MissingFields(req.body, RequiredFields)))
    ensures r.call.Some? && store.Threw? ==> r.result == Raise(store.error)
    ensures r.call.Some? && store == Returned(None) ==>
      Raised(r.result, 404, NotFoundMessage) && r.result.error.details == Some(PostId(IdParam(req).value))
    ensures r.call.Some? && store.Returned? && store.value.Some? ==>
      SentEnvelope(r.result, 200, Some(UpdatedMessage), None, None, "post", One(store.value.value))
  {
    var id := IdParam(req);
    if !ValidId(id) then
      Run(None, Raise(AppError(InvalidIdMessage, 400, None)))
    else
      MissingPostFields(req);
      var missing := MissingFields(req.body, RequiredFields);
      if missing != [] then
        Run(None, Raise(AppError(MissingFieldsMessage, 400, Some(Missing(missing)))))
      else
        var call := ModifyPost(id, BodyField(req, "title").value, BodyField(req, "content").value, BodyField(req, "author").value);
        var outcome := match store
          case Threw(e) => Raise(e)
          case Returned(None) => Raise(AppError(NotFoundMessage, 404, Some(PostId(id.value))))
          case Returned(Some(post)) =>
            Respond(Response(200, Envelope(Some(UpdatedMessage), None, None, "post", One(post))));
        Run(Some(call), outcome)
  }

  /** `deletePost`: the snapshot the model returns is sent under `data.deletedPost`. */
  function DeletePost(req: Request, store: StoreResult<Option<Post>>): (r: PostRun)
    ensures r.call.Some? <==> ValidId(IdParam(req))
    ensures r.call.Some? ==> r.call.value == RemovePost(IdParam(req))
    ensures r.call.None? ==> Raised(r.result, 400, InvalidIdMessage) && r.result.error.details.None?
    ensures r.call.Some? && store.Threw? ==> r.result == Raise(store.error)
    ensures r.call.Some? && store == Returned(None) ==>
      Raised(r.result, 404, NotFoundMessage) && r.result.error.details == Some(PostId(IdParam(req).value))
    ensures r.call.Some? && store.Returned? && store.value.Some? ==>
      SentEnvelope(r.result, 200, Some(DeletedMessage), None, None, "deletedPost", One(store.value.value))
  {
    var id := IdParam(req);
    if !ValidId(id) then
      Run(None, Raise(AppError(InvalidIdMessage, 400, None)))
    else
      var outcome := match store
        case Threw(e) => Raise(e)
        case Returned(None) => Raise(AppError(NotFoundMessage, 404, Some(PostId(id.value))))
        case Returned(Some(post)) =>
          Respond(Response(200, Envelope(Some(DeletedMessage), None, None, "deletedPost", One(post))));
      Run(Some(RemovePost(id)), outcome)
  }

  /** `searchPosts`: a truthy term of at least two characters, echoed back. */
  function SearchPosts(req: Request, store: StoreResult<seq<Post>>): (r: PostRun)
    ensures r.call.Some? <==> Truthy(QueryTerm(req)) && |QueryTerm(req).value| >= 2
    ensures r.call.Some? ==> r.call.value == MatchPosts(QueryTerm(req).value)
    ensures !Truthy(QueryTerm(req)) ==> Raised(r.result, 400, QueryRequiredMessage) && r.result.error.details.None?
    ensures Truthy(QueryTerm(req)) && r.call.None? ==>
      Raised(r.result, 400, QueryTooShortMessage) && r.result.error.details.None?
    ensures r.call.Some? && store.Threw? ==> r.result == Raise(store.error)
    ensures r.call.Some? && store.Returned? ==>
      SentEnvelope(r.result, 200, None, Some(|store.value|), QueryTerm(req), "posts", Many(store.value))
  {
    var q := QueryTerm(req);
    if !Truthy(q) then
      Run(None, Raise(AppError(QueryRequiredMessage, 400, None)))
    else if |q.value| < 2 then
      Run(None, Raise(AppError(QueryTooShortMessage, 400, None)))
    else
      var outcome := match store
        case Threw(e) => Raise(e)
        case Returned(posts) =>
          Respond(Response(200, Envelope(None, Some(|posts|), Some(q.value), "posts", Many(posts))));
      Run(Some(MatchPosts(q.value)), outcome)
  }

  /** The fields reported missing, spelled out: `title`, `content`, `author`,
      each listed when falsy, in that order; the list is empty exactly when all
      three are present. */
  lemma MissingPostFields(req: Request)
    ensures MissingFields(req.body, RequiredFields) ==
      (if Truthy(BodyField(req, "title")) then [] else ["title"])
      + (if Truthy(BodyField(req, "content")) then [] else ["content"])
      + (if Truthy(BodyField(req, "author")) then [] else ["author"])
    ensures MissingFields(req.body, RequiredFields) == [] <==> HasPostFields(req)
  {
    assert RequiredFields[1..] == ["content", "author"];
    assert RequiredFields[1..][1..] == ["author"];
    assert RequiredFields[1..][1..][1..] == [];
  }

  /** A body carrying only a title is answered with `missingFields = ['content', 'author']`. */
  lemma OnlyTitleMissesContentAndAuthor(req: Request, title: string, store: StoreResult<Post>)
    requires req.body == map["title" := title] && title != ""
    ensures CreatePost(req, store).call.None?
    ensures Raised(CreatePost(req, store).result, 400, MissingFieldsMessage)
    ensures CreatePost(req, store).result.error.details == Some(Missing(["content", "author"]))
  {
    MissingPostFields(req);
    assert Truthy(BodyField(req, "title"));
    assert "content" !in req.body && "author" !in req.body;
    assert [] + ["content"] + ["author"] == ["content", "author"];
  }

  /** Boundary lengths: a title of 2 characters is rejected and one of 3 passes;
      content of 9 characters is rejected and one of 10 passes. */
  lemma CreatePostLengthBoundaries(req: Request, store: StoreResult<Post>)
    requires HasPostFields(req)
    ensures |BodyField(req, "title").value| == 2 ==> Raised(CreatePost(req, store).result, 400, TitleTooShortMessage)
    ensures |BodyField(req, "title").value| == 3 && |BodyField(req, "content").value| == 9 ==>
      Raised(CreatePost(req, store).result, 400, ContentTooShortMessage)
    ensures |BodyField(req, "title").value| == 3 && |BodyField(req, "content").value| == 10 ==>
      CreatePost(req, store).call.Some?
  {
  }

  /** A handler that rejects the request has not consulted the model: its
      outcome is the same whatever the model would have answered. */
  lemma RejectionIgnoresStore(req: Request, a: StoreResult<Option<Post>>, b: StoreResult<Option<Post>>,
                              c: StoreResult<Post>, d: StoreResult<Post>,
                              s: StoreResult<seq<Post>>, t: StoreResult<seq<Post>>)
    ensures GetPostById(req, a).call.None? ==> GetPostById(req, a) == GetPostById(req, b)
    ensures UpdatePost(req, a).call.None? ==> UpdatePost(req, a) == UpdatePost(req, b)
    ensures DeletePost(req, a).call.None? ==> DeletePost(req, a) == DeletePost(req, b)
    ensures CreatePost(req, c).call.None? ==> CreatePost(req, c) == CreatePost(req, d)
    ensures SearchPosts(req, s).call.None? ==> SearchPosts(req, s) == SearchPosts(req, t)
  {
  }
}

=== FILE: status_text.dfy ===
/** Decimal text of an integer, as JavaScript's template literal `${n}` renders
    an integral number below 2^53 in magnitude, and the arithmetic meaning of
    "the text starts with '4'". From 2^53 up JavaScript prints the shortest
    digits of the nearest double, and from 10^21 up the exponent form; neither
    is modelled. The leading digit differs only from 10^21 up. */
module StatusText {

  function Pow10(k: nat): (p: nat)
    ensures p >= 1
  {
    if k == 0 then 1 else 10 * Pow10(k - 1)
  }

  function DigitChar(d: nat): (c: char)
    requires d < 10
    ensures '0' <= c <= '9' && c as int - '0' as int == d
  {
    "0123456789"[d]
  }

  /** Decimal digits of `n`, most significant first, without leading zeros. */
  function NatText(n: nat): (t: string)
    ensures |t| >= 1
    ensures forall i :: 0 <= i < |t| ==> '0' <= t[i] <= '9'
    ensures n > 0 ==> t[0] != '0'
    decreases n
  {
    if n < 10 then [DigitChar(n)] else NatText(n / 10) + [DigitChar(n % 10)]
  }

  /** `${n}` for an integer `n`, written out in full: a minus sign exactly for
      negative `n`, then the decimal digits of `|n|` without leading zeros. */
  function IntText(n: int): (t: string)
    ensures |t| >= 1
    ensures t[0] == '-' <==> n < 0
    ensures n < 0 ==> |t| >= 2
    ensures forall i :: (if n < 0 then 1 else 0) <= i < |t| ==> '0' <= t[i] <= '9'
    ensures n != 0 ==> t[if n < 0 then 1 else 0] != '0'
    ensures n == 0 ==> t == "0"
  {
    if n < 0 then "-" + NatText(-n) else NatText(n)
  }

  /** The number a string of decimal digits denotes. */
  function DigitsValue(t: string): (v: nat)
    requires forall i :: 0 <= i < |t| ==> '0' <= t[i] <= '9'
    decreases |t|
  {
    if t == [] then 0 else 10 * DigitsValue(t[..|t| - 1]) + (t[|t| - 1] as int - '0' as int)
  }

  /** `Number(t)` for the text of an integer: an optional minus sign and digits. */
  function TextValue(t: string): (v: int)
    requires |t| >= 1 && forall i :: 0 < i < |t| ==> '0' <= t[i] <= '9'
    requires t[0] != '-' ==> '0' <= t[0] <= '9'
  {
    if t[0] == '-' then -(DigitsValue(t[1..]) as int) else DigitsValue(t)
  }

  /** Reading the digits back gives the number they were written from. */
  lemma {:induction false} NatTextRoundTrip(n: nat)
    ensures DigitsValue(NatText(n)) == n
    decreases n
  {
    var t := NatText(n);
    if n >= 10 {
      NatTextRoundTrip(n / 10);
      assert t[..|t| - 1] == NatText(n / 10);
    }
  }

  /** `Number(`${n}`) === n`: the text of an integer denotes that integer. */
  lemma IntTextRoundTrip(n: int)
    ensures TextValue(IntText(n)) == n
  {
    var t := IntText(n);
    if n < 0 {
      var m: nat := -n;
      assert t == "-" + NatText(m);
      assert t[1..] == NatText(m);
      NatTextRoundTrip(m);
      assert TextValue(t) == -(DigitsValue(NatText(m)) as int);
    } else {
      assert t == NatText(n);
      NatTextRoundTrip(n);
      assert NatText(n)[0] != '-';
    }
  }

  /** The most significant decimal digit of `n`. */
  function LeadingDigit(n: nat): (d: nat)
    ensures d < 10
    decreases n
  {
    if n < 10 then n else LeadingDigit(n / 10)
  }

  /** `n` lies in the band of numbers written with leading digit `d` and `k` digits after it. */
  ghost predicate InBand(n: int, d: nat, k: nat) {
    d * Pow10(k) <= n < (d + 1) * Pow10(k)
  }

  /** A non-negative integer whose decimal text begins with the digit 4. */
  ghost predicate LeadsWithFour(n: int) {
    n >= 0 && exists k: nat :: InBand(n, 4, k)
  }

  predicate StartsWithFour(t: string) {
    |t| > 0 && t[0] == '4'
  }

  /** The first character of the decimal text is the leading digit. */
  lemma {:induction false} NatTextFirstChar(n: nat)
    ensures NatText(n)[0] == DigitChar(LeadingDigit(n))
    decreases n
  {
    if n >= 10 {
      NatTextFirstChar(n / 10);
      assert NatText(n) == NatText(n / 10) + [DigitChar(n % 10)];
    }
  }

  /** Dividing by ten maps the band `[10a, 10b)` onto `[a, b)`. */
  lemma DivTenBand(n: nat, a: int, b: int)
    ensures 10 * a <= n < 10 * b <==> a <= n / 10 < b
  {
  }

  /** Scaling a band by ten: `n / 10` is in band `(d, k)` exactly when `n` is in band `(d, k + 1)`. */
  lemma BandTimesTen(n: nat, d: nat, k: nat)
    ensures InBand(n / 10, d, k) <==> InBand(n, d, k + 1)
  {
    var p := Pow10(k);
    assert Pow10(k + 1) == 10 * p;
    assert d * (10 * p) == 10 * (d * p);
    assert (d + 1) * (10 * p) == 10 * ((d + 1) * p);
    DivTenBand(n, d * p, (d + 1) * p);
  }

  /** Every band past the single digits starts at ten or above. */
  lemma WideBandStart(d: nat, k: nat)
    requires 1 <= d && 1 <= k
    ensures d * Pow10(k) >= 10
  {
    var p := Pow10(k - 1);
    assert Pow10(k) == 10 * p;
    assert d * (10 * p) >= 10 * p;
  }

  /** A single digit lies only in a band with no digits after the leading one. */
  lemma SingleDigitBand(n: nat, d: nat, k: nat)
    requires n < 10 && 1 <= d && InBand(n, d, k)
    ensures k == 0
  {
    if k > 0 {
      WideBandStart(d, k);
    }
  }

  /** The leading digit of `n` is `d` exactly when `n` lies in a band `[d·10^k, (d+1)·10^k)`. */
  lemma {:induction false} LeadingDigitBand(n: nat, d: nat)
    requires 1 <= d <= 9
    ensures LeadingDigit(n) == d <==> exists k: nat :: InBand(n, d, k)
    decreases n
  {
    if n < 10 {
      if LeadingDigit(n) == d {
        assert InBand(n, d, 0);
      }
      if k: nat :| InBand(n, d, k) {
        SingleDigitBand(n, d, k);
      }
    } else {
      LeadingDigitBand(n / 10, d);
      if LeadingDigit(n) == d {
        var k: nat :| InBand(n / 10, d, k);
        BandTimesTen(n, d, k);
      }
      if k: nat :| InBand(n, d, k) {
        assert k != 0 by {
          assert !InBand(n, d, 0);
        }
        BandTimesTen(n, d, k - 1);
      }
    }
  }

  /** `${n}`.startsWith('4') holds exactly for the non-negative integers whose
      leading decimal digit is 4: 4, 40–49, 400–499, 4000–4999, … */
  lemma StatusTextRule(n: int)
    ensures StartsWithFour(IntText(n)) <==> LeadsWithFour(n)
  {
    if n >= 0 {
      NatTextFirstChar(n);
      LeadingDigitBand(n, 4);
      var d := LeadingDigit(n);
      assert DigitChar(d) == '4' <==> d == 4;
    } else {
      assert IntText(n)[0] == '-';
    }
  }

  /** Every 4xx status renders with a leading '4'. */
  lemma ClientStatusStartsWithFour(n: int)
    requires 400 <= n <= 499
    ensures StartsWithFour(IntText(n))
  {
    assert LeadingDigit(n / 100) == 4;
    assert LeadingDigit(n) == LeadingDigit(n / 10) == LeadingDigit(n / 100);
    NatTextFirstChar(n);
  }

  /** No 5xx status renders with a leading '4'. */
  lemma ServerStatusDoesNotStartWithFour(n: int)
    requires 500 <= n <= 599
    ensures !StartsWithFour(IntText(n))
  {
    assert LeadingDigit(n / 100) == 5;
    assert LeadingDigit(n) == LeadingDigit(n / 10) == LeadingDigit(n / 100);
    NatTextFirstChar(n);
  }
}

=== FILE: store.dfy ===
/** The data layer as the controllers see it: the records it returns, the
    calls the controllers issue, and what a call comes back with. The SQL
    behind each call (id generation, `RETURNING *`, `ILIKE` matching, ordering)
    belongs to the database and is not modelled; a call's answer is an oracle
    value passed to the handler. */
module Store {
  import opened Common
  import opened ErrorHandler

  /** A row of the `students` table. */
  datatype Student = Student(id: int, name: string, email: string, createdAt: string)

  /** A row of the `posts` table. */
  datatype Post = Post(id: int, title: string, content: string, author: string, createdAt: string)

  /** The calls of models/studentModel.js, with the arguments passed. */
  datatype StudentCall =
    | ListStudents
    | FindStudent(id: Option<string>)
    | InsertStudent(name: string, email: string)
    | ModifyStudent(id: Option<string>, name: string, email: string)
    | RemoveStudent(id: Option<string>)
    | MatchStudents(term: string)

  /** The calls of models/postModel.js, with the arguments passed. */
  datatype PostCall =
    | ListPosts
    | FindPost(id: Option<string>)
    | InsertPost(title: string, content: string, author: string)
    | ModifyPost(id: Option<string>, title: string, content: string, author: string)
    | RemovePost(id: Option<string>)
    | MatchPosts(term: string)

  /** What an awaited model call settles to: its value (`None` for a lookup
      whose `rows[0]` is undefined), or the error the driver threw. */
  datatype StoreResult<+T> = Returned(value: T) | Threw(error: Err)
}

=== FILE: students_controller.dfy ===
/** controllers/studentsController.js: six asyncHandler-wrapped handlers that
    validate the request, make one call to the student model, and either send
    a success envelope or raise an `AppError` for `globalErrorHandler`. Each
    handler is a function of the request and the model call's answer. */
module StudentsController {
  import opened Common
  import opened ErrorHandler
  import opened Store

  const NotFoundMessage := "Estudante não encontrado"
  const CreatedMessage := "Estudante criado com sucesso"
  const UpdatedMessage := "Estudante atualizado com sucesso"
  const DeletedMessage := "Estudante deletado com sucesso"

  /** The body fields create and update require, in the order they are checked. */
  const RequiredFields := ["name", "email"]

  type StudentRun = Run<StudentCall, Outcome<Student>>

  /** `getStudents`: every student, with `results` counting them. */
  function GetStudents(store: StoreResult<seq<Student>>): (r: StudentRun)
    ensures r.call == Some(ListStudents)
    ensures store.Threw? ==> r.result == Raise(store.error)
    ensures store.Returned? ==> SentEnvelope(r.result, 200, None, Some(|store.value|), None, "students", Many(store.value))
  {
    var outcome := match store
      case Threw(e) => Raise(e)
      case Returned(students) =>
        Respond(Response(200, Envelope(None, Some(|students|), None, "students", Many(students))));
    Run(Some(ListStudents), outcome)
  }

  /** `getStudentById`: the id is checked before the model is asked. */
  function GetStudentById(req: Request, store: StoreResult<Option<Student>>): (r: StudentRun)
    ensures r.call.Some? <==> ValidId(IdParam(req))
    ensures r.call.Some? ==> r.call.value == FindStudent(IdParam(req))
    ensures r.call.None? ==> Raised(r.result, 400, InvalidIdMessage) && r.result.error.details.None?
    ensures r.call.Some? && store.Threw? ==> r.result == Raise(store.error)
    ensures r.call.Some? && store == Returned(None) ==>
      Raised(r.result, 404, NotFoundMessage) && r.result.error.details == Some(StudentId(IdParam(req).value))
    ensures r.call.Some? && store.Returned? && store.value.Some? ==>
      SentEnvelope(r.result, 200, None, None, None, "student", One(store.value.value))
  {
    var id := IdParam(req);
    if !ValidId(id) then
      Run(None, Raise(AppError(InvalidIdMessage, 400, None)))
    else
      var outcome := match store
        case Threw(e) => Raise(e)
        case Returned(None) => Raise(AppError(NotFoundMessage, 404, Some(StudentId(id.value))))
        case Returned(Some(student)) => Respond(Response(200, Envelope(None, None, None, "student", One(student))));
      Run(Some(FindStudent(id)), outcome)
  }

  /** `createStudent`: every missing field is reported at once, before the model is asked. */
  function CreateStudent(req: Request, store: StoreResult<Student>): (r: StudentRun)
    ensures r.call.Some? <==> MissingFields(req.body, RequiredFields) == []
    ensures r.call.Some? ==> Truthy(BodyField(req, "name")) && Truthy(BodyField(req, "email"))
    ensures r.call.Some? ==> r.call.value == InsertStudent(BodyField(req, "name").value, BodyField(req, "email").value)
    ensures r.call.None? ==>
      Raised(r.result, 400, MissingFieldsMessage) && r.result.error.details == Some(Missing(MissingFields(req.body, RequiredFields)))
    ensures r.call.Some? && store.Threw? ==> r.result == Raise(store.error)
    ensures r.call.Some? && store.Returned? ==> SentEnvelope(r.result, 201, Some(CreatedMessage), None, None, "student", One(store.value))
  {
    var missing := MissingFields(req.body, RequiredFields);
    if missing != [] then
      Run(None, Raise(AppError(MissingFieldsMessage, 400, Some(Missing(missing)))))
    else
      assert "name" in RequiredFields && "email" in RequiredFields;
      var call := InsertStudent(BodyField(req, "name").value, BodyField(req, "email").value);
      var outcome := match store
        case Threw(e) => Raise(e)
        case Returned(student) =>
          Respond(Response(201, Envelope(Some(CreatedMessage), None, None, "student", One(student))));
      Run(Some(call), outcome)
  }

  /** `updateStudent`: the id is checked first, then the fields, and only then is the model asked. */
  function UpdateStudent(req: Request, store: StoreResult<Option<Student>>): (r: StudentRun)
    ensures r.call.Some? <==> ValidId(IdParam(req)) && MissingFields(req.body, RequiredFields) == []
    ensures r.call.Some? ==>
      r.call.value == ModifyStudent(IdParam(req), BodyField(req, "name").value, BodyField(req, "email").value)
    ensures !ValidId(IdParam(req)) ==> Raised(r.result, 400, InvalidIdMessage) && r.result.error.details.None?
    ensures ValidId(IdParam(req)) && r.call.None? ==>
      Raised(r.result, 400, MissingFieldsMessage) && r.result.error.details == Some(Missing(MissingFields(req.body, RequiredFields)))
    ensures r.call.Some? && store.Threw? ==> r.result == Raise(store.error)
    ensures r.call.Some? && store == Returned(None) ==>
      Raised(r.result, 404, NotFoundMessage) && r.result.error.details == Some(StudentId(IdParam(req).value))
    ensures r.call.Some? && store.Returned? && store.value.Some? ==>
      SentEnvelope(r.result, 200, Some(UpdatedMessage), None, None, "student", One(store.value.value))
  {
    var id := IdParam(req);
    if !ValidId(id) then
      Run(None, Raise(AppError(InvalidIdMessage, 400, None)))
    else
      var missing := MissingFields(req.body, RequiredFields);
      if missing != [] then
        Run(None, Raise(AppError(MissingFieldsMessage, 400, Some(Missing(missing)))))
      else
        assert "name" in RequiredFields && "email" in RequiredFields;
        var call := ModifyStudent(id, BodyField(req, "name").value, BodyField(req, "email").value);
        var outcome := match store
          case Threw(e) => Raise(e)
          case Returned(None) => Raise(AppError(NotFoundMessage, 404, Some(StudentId(id.value))))
          case Returned(Some(student)) =>
            Respond(Response(200, Envelope(Some(UpdatedMessage), None, None, "student", One(student))));
        Run(Some(call), outcome)
  }

  /** `deleteStudent`: the deleted row is returned under `data.student`. */
  function DeleteStudent(req: Request, store: StoreResult<Option<Student>>): (r: StudentRun)
    ensures r.call.Some? <==> ValidId(IdParam(req))
    ensures r.call.Some? ==> r.call.value == RemoveStudent(IdParam(req))
    ensures r.call.None? ==> Raised(r.result, 400, InvalidIdMessage) && r.result.error.details.None?
    ensures r.call.Some? && store.Threw? ==> r.result == Raise(store.error)
    ensures r.call.Some? && store == Returned(None) ==>
      Raised(r.result, 404, NotFoundMessage) && r.result.error.details == Some(StudentId(IdParam(req).value))
    ensures r.call.Some? && store.Returned? && store.value.Some? ==>
      SentEnvelope(r.result, 200, Some(DeletedMessage), None, None, "student", One(store.value.value))
  {
    var id := IdParam(req);
    if !ValidId(id) then
      Run(None, Raise(AppError(InvalidIdMessage, 400, None)))
    else
      var outcome := match store
        case Threw(e) => Raise(e)
        case Returned(None) => Raise(AppError(NotFoundMessage, 404, Some(StudentId(id.value))))
        case Returned(Some(student)) =>
          Respond(Response(200, Envelope(Some(DeletedMessage), None, None, "student", One(student))));
      Run(Some(RemoveStudent(id)), outcome)
  }

  /** `searchStudents`: a missing term is rejected before a short one. */
  function SearchStudents(req: Request, store: StoreResult<seq<Student>>): (r: StudentRun)
    ensures r.call.Some? <==> Truthy(QueryTerm(req)) && |QueryTerm(req).value| >= 2
    ensures r.call.Some? ==> r.call.value == MatchStudents(QueryTerm(req).value)
    ensures !Truthy(QueryTerm(req)) ==> Raised(r.result, 400, QueryRequiredMessage) && r.result.error.details.None?
    ensures Truthy(QueryTerm(req)) && r.call.None? ==>
      Raised(r.result, 400, QueryTooShortMessage) && r.result.error.details.None?
    ensures r.call.Some? && store.Threw? ==> r.result == Raise(store.error)
    ensures r.call.Some? && store.Returned? ==>
      SentEnvelope(r.result, 200, None, Some(|store.value|), QueryTerm(req), "students", Many(store.value))
  {
    var q := QueryTerm(req);
    if !Truthy(q) then
      Run(None, Raise(AppError(QueryRequiredMessage, 400, None)))
    else if |q.value| < 2 then
      Run(None, Raise(AppError(QueryTooShortMessage, 400, None)))
    else
      var outcome := match store
        case Threw(e) => Raise(e)
        case Returned(students) =>
          Respond(Response(200, Envelope(None, Some(|students|), Some(q.value), "students", Many(students))));
      Run(Some(MatchStudents(q.value)), outcome)
  }

  /** An accepted search answers exactly what listing the matched rows would,
      plus the echoed term; a driver error reaches `next` from both alike. */
  lemma SearchAnswersLikeList(req: Request, store: StoreResult<seq<Student>>)
    requires Truthy(QueryTerm(req)) && |QueryTerm(req).value| >= 2
    ensures store.Threw? ==> SearchStudents(req, store).result == GetStudents(store).result
    ensures store.Returned? ==>
      SearchStudents(req, store).result.response
        == GetStudents(store).result.response.(body := GetStudents(store).result.response.body.(searchTerm := QueryTerm(req)))
  {
  }

  /** The fields reported missing, spelled out: `name` if falsy, then `email` if falsy. */
  lemma MissingStudentFields(req: Request)
    ensures MissingFields(req.body, RequiredFields) ==
      (if Truthy(BodyField(req, "name")) then [] else ["name"]) + (if Truthy(BodyField(req, "email")) then [] else ["email"])
  {
    assert RequiredFields[1..] == ["email"];
    assert RequiredFields[1..][1..] == [];
  }

  /** A handler that rejects the request has not consulted the model: its
      outcome is the same whatever the model would have answered. */
  lemma RejectionIgnoresStore(req: Request, a: StoreResult<Option<Student>>, b: StoreResult<Option<Student>>,
                              c: StoreResult<Student>, d: StoreResult<Student>,
                              s: StoreResult<seq<Student>>, t: StoreResult<seq<Student>>)
    ensures GetStudentById(req, a).call.None? ==> GetStudentById(req, a) == GetStudentById(req, b)
    ensures UpdateStudent(req, a).call.None? ==> UpdateStudent(req, a) == UpdateStudent(req, b)
    ensures DeleteStudent(req, a).call.None? ==> DeleteStudent(req, a) == DeleteStudent(req, b)
    ensures CreateStudent(req, c).call.None? ==> CreateStudent(req, c) == CreateStudent(req, d)
    ensures SearchStudents(req, s).call.None? ==> SearchStudents(req, s) == SearchStudents(req, t)
  {
  }

  /** A lookup that finds nothing reaches the client as 404 naming the id, in
      every environment, because the error is operational. */
  lemma StudentNotFoundReply(req: Request, nodeEnv: string, now: string)
    requires ValidId(IdParam(req))
    ensures GlobalErrorHandler(GetStudentById(req, Returned(None)).result.error, req, nodeEnv, now).statusCode == 404
    ensures GlobalErrorHandler(GetStudentById(req, Returned(None)).result.error, req, nodeEnv, now).body.details ==
      Some(StudentId(IdParam(req).value))
  {
  }
}

=== FILE: variants.dfy ===
/** Where the two posts controllers disagree. The routes use the live one,
    while tests/postsController.test.js asserts the behaviour of the old one. */
module Variants {
  import opened Common
  import opened ErrorHandler
  import opened Store
  import Old = PostsControllerOld
  import Live = PostsController

  /** The old variant's collected missing-field list is empty exactly when the
      live variant's `!title || !content || !author` test passes, so both
      reject the same bodies for missing fields. */
  lemma SameFieldPresence(req: Request, a: StoreResult<Post>, b: StoreResult<Option<Post>>)
    ensures MissingFields(req.body, Old.RequiredFields) == [] <==> HasPostFields(req)
    ensures MissingFields(req.body, Old.RequiredFields) == [] <==> Live.CreatePost(req, a).call.Some?
    ensures MissingFields(req.body, Old.RequiredFields) == [] <==> Live.UpdatePost(req, b).call.Some?
  {
    Old.MissingPostFields(req);
  }

  /** A complete body with a title under three characters: the old variant
      rejects it with the title message; the live one hands it to the model. */
  lemma ShortTitleDivergence(req: Request, store: StoreResult<Post>)
    requires HasPostFields(req) && |BodyField(req, "title").value| < Old.MinTitleLength
    ensures Old.CreatePost(req, store).call.None?
    ensures Raised(Old.CreatePost(req, store).result, 400, Old.TitleTooShortMessage)
    ensures Live.CreatePost(req, store).call.Some?
  {
  }

  /** A non-numeric id: the old variant answers 400 without a lookup; the live
      one looks the raw id up. */
  lemma NonNumericIdDivergence(req: Request, store: StoreResult<Option<Post>>)
    requires !ValidId(IdParam(req))
    ensures Old.GetPostById(req, store).call.None?
    ensures Raised(Old.GetPostById(req, store).result, 400, InvalidIdMessage)
    ensures Live.GetPostById(req, store).call == Some(FindPost(IdParam(req)))
  {
  }

  /** A one-character search term: rejected by the old variant, searched by the live one. */
  lemma ShortTermDivergence(req: Request, store: StoreResult<seq<Post>>)
    requires Truthy(QueryTerm(req)) && |QueryTerm(req).value| == 1
    ensures Raised(Old.SearchPosts(req, store).result, 400, QueryTooShortMessage)
    ensures Live.SearchPosts(req, store).call == Some(MatchPosts(QueryTerm(req).value))
  {
  }

  /** Both variants issue the same model call from every handler whenever the
      old variant's checks pass. */
  lemma SameCallsWhenOldAccepts(req: Request, a: StoreResult<Post>, b: StoreResult<Option<Post>>, c: StoreResult<seq<Post>>)
    ensures Old.GetPostById(req, b).call.Some? ==> Old.GetPostById(req, b).call == Live.GetPostById(req, b).call
    ensures Old.DeletePost(req, b).call.Some? ==> Old.DeletePost(req, b).call == Live.DeletePost(req, b).call
    ensures Old.CreatePost(req, a).call.Some? ==> Old.CreatePost(req, a).call == Live.CreatePost(req, a).call
    ensures Old.UpdatePost(req, b).call.Some? ==> Old.UpdatePost(req, b).call == Live.UpdatePost(req, b).call
    ensures Old.SearchPosts(req, c).call.Some? ==> Old.SearchPosts(req, c).call == Live.SearchPosts(req, c).call
    ensures Old.GetPosts(c).call == Live.GetPosts(c).call
  {
  }

  /** The same list of posts: an envelope counting them from the old variant, the bare array from the live one. */
  lemma ListShapeDivergence(posts: seq<Post>)
    ensures Old.GetPosts(Returned(posts)).result.response.body == Envelope(None, Some(|posts|), None, "posts", Many(posts))
    ensures Live.GetPosts(Returned(posts)).result.body == Bare(Many(posts))
  {
  }

  /** Deleting a post that exists: the old variant sends the deleted row back
      under `data.deletedPost`, the live one only a message; a post that does
      not exist is a 404 from both. */
  lemma DeleteShapeDivergence(req: Request, post: Post)
    requires ValidId(IdParam(req))
    ensures Old.DeletePost(req, Returned(Some(post))).result.response.body.data == One(post)
    ensures Live.DeletePost(req, Returned(Some(post))).result == Response(200, MessageBody(Live.DeletedMessage))
    ensures Raised(Old.DeletePost(req, Returned(None)).result, 404, Old.NotFoundMessage)
    ensures Live.DeletePost(req, Returned(None)).result.statusCode == 404
  {
  }
}
